=== FILE: README.md ===
# zombie: declarative exception remapping, modelled in Dafny

zombie is a small Python library. It turns errors of one kind into errors of another kind at an API boundary. A caller writes `ExceptionTransformation` rules and hands them to `Reraise`. `Reraise` works both as a context manager (`with Reraise(rules): ...`) and as a decorator. When an error leaves the guarded block or callable, the first rule whose original class the error is an instance of decides what happens: a new error of the rule's new class is raised, with a message that is absent, plain, or a `string.Template`, and optionally chained from the original. If no rule matches, the original error is raised again.

This project models that engine as pure functions:

- `kinds.dfy` (module `Kinds`): exception classes as an identity (such as the qualified name) plus the ancestors' identities in method resolution order. `IsA` is `isinstance` for classes with the default metaclass. The module also defines a few built-in classes.
- `errors.dfy` (module `Errors`): an exception instance. It has an identity tag, a class, the constructor argument, `str()` of the instance (taken as given), and `__cause__`. `Completion` is how a Python call ends: it returns or it raises. `Runtime` stands for what the interpreter supplies when a new exception is built: the fresh instance's identity and its `str()`.
- `string_template.dfy` (module `StringTemplate`): `string.Template.safe_substitute` for the single key `original_error_message`. It defines a lexer for `$$`, `$name`, `${name}`, a stray `$` and literal characters, the reference definition `Substitute`, and the scanning loop `SafeSubstitute` proved equal to it.
- `zombie.dfy` (module `Zombie`): the rule record, message resolution, `_transform_and_raise` and `_raise_transformed_exception`.
- `guards.dfy` (module `Guards`): `Reraise` construction, `__enter__`, `__exit__`, the `with` statement around a block, the decorator's `wrapper`, `decorate` and `__call__`.
- `scenarios.dfy` (module `Scenarios`): the repository's test cases, stated as lemmas.
- `wrappers.dfy` (module `Wrappers`): `Option` and `Result`.

The matcher returns `Completion<()>`. It is proved to be `Raised` on every path, so "never returns normally" is a theorem rather than a convention.

The code and its documentation disagree about rules whose message is absent. The docstring of `ExceptionTransformation` (zombie/zombie.py:41-42) says the original error's message is then used. The code keeps `error_message = None` (zombie/zombie.py:90) and constructs the new error with `None` (zombie/zombie.py:104, 109). The model follows the code. `Zombie.AbsentStaysNone` proves the new error's argument is `None` and never the original message.

## Model

| member | source | states |
|---|---|---|
| Kinds.IsA | zombie/zombie.py:137 | for a target class with the default metaclass, `isinstance` holds exactly when the target class occurs in the method resolution order of the instance's class; in particular every instance is an instance of its own class |
| Kinds.IsATransitive | zombie/zombie.py:137 | `isinstance` sees subclasses: an instance of a subclass of B is an instance of every class B is an instance of |
| StringTemplate.IdentLengthMaximal | zombie/zombie.py:94-96 | a `$name` placeholder's name is the longest run of identifier characters: all counted characters are identifier characters and the next one, if any, is not |
| StringTemplate.Lex | zombie/zombie.py:94-96 | reading one template token consumes at least one character and exactly the token's own spelling; only a `$` starts a non-literal token |
| StringTemplate.LexDelimiter | zombie/zombie.py:94-96 | a `$` starts `$$` (escaped, two characters) exactly when another `$` follows; `$` and an identifier start is read as a named placeholder; `${` is read as a braced placeholder if it can be; a `$` followed by anything else, or at the end, is the invalid placeholder; the invalid placeholder is exactly the token that consumes the `$` alone |
| StringTemplate.LexNamed | zombie/zombie.py:94-96 | `$` and an identifier start are read as a named placeholder with a non-empty name, spelled by exactly the text consumed |
| StringTemplate.NamedIsLongestIdentifier | zombie/zombie.py:94-96 | a named placeholder's name is an identifier and the longest one: the character after it, if any, is not an identifier character |
| StringTemplate.LexNamedFinds | zombie/zombie.py:94-96 | whenever identifier characters run from just after a `$` up to the end or to a character that is not one, the named placeholder spanning exactly them is read |
| StringTemplate.LexBraced | zombie/zombie.py:94-96 | `${` gives either a braced placeholder spelled `${name}` by exactly the text consumed, or an invalid placeholder |
| StringTemplate.BracedIsIdentifier | zombie/zombie.py:94-96 | a braced placeholder's name is an identifier, and an invalid placeholder read at `${` consumes the `$` alone |
| StringTemplate.LexBracedFinds | zombie/zombie.py:94-96 | whenever an identifier and `}` follow `${`, the braced placeholder with that identifier is read, so an invalid placeholder arises only when they do not |
| StringTemplate.Tokens | zombie/zombie.py:94-96 | splitting a template into tokens loses no text: the spellings concatenate back to the template |
| StringTemplate.Render | zombie/zombie.py:94-96 | every token other than `$$` and a reference to `original_error_message` is emitted as its own text |
| StringTemplate.SafeSubstitute | zombie/zombie.py:94-96 | the token-by-token scanning loop computes exactly the reference substitution |
| StringTemplate.KeepsOtherText | zombie/zombie.py:94-96 | a template with no `$$` and no reference to the key comes back unchanged; unknown and malformed placeholders stay literal and substitution never fails |
| StringTemplate.PlainTextUnchanged | zombie/zombie.py:94-96 | text without `$` is returned as it is, whatever the original message |
| StringTemplate.LiteralPrefix | zombie/zombie.py:94-96 | text without `$` in front of a template is copied before the substituted rest |
| StringTemplate.PlaceholderFilled | zombie/zombie.py:94-96 | `${original_error_message}` becomes the original error's rendered message |
| StringTemplate.BareFilled | zombie/zombie.py:94-96 | a template that starts with the bare `$original_error_message`, not followed by an identifier character, has it replaced by the original error's rendered message, and the rest is substituted as usual |
| StringTemplate.BareLongerNameKept | zombie/zombie.py:94-96 | `$original_error_message` followed by more identifier characters is a different, longer name: the whole identifier is emitted as written and substitution goes on after it |
| StringTemplate.EscapedDelimiter | zombie/zombie.py:94-96 | `$$` becomes a single `$` |
| StringTemplate.FillsEveryPlaceholder | zombie/zombie.py:94-96 | when the text between the occurrences contains no `$`, every occurrence of `${original_error_message}` is replaced by the message and that text is kept |
| StringTemplate.EscapeRoundTrip | zombie/zombie.py:94-96 | any text with each `$` doubled substitutes back to itself, whatever the message |
| Zombie.Matches | zombie/zombie.py:137 | a rule catches instances of its own original class and of every class that has it among its ancestors |
| Zombie.MatchesOnlyMro | zombie/zombie.py:137 | for an original class with the default metaclass, a rule catches an error exactly when that class occurs in the method resolution order of the error's class, so a class outside it is never caught |
| Zombie.ResolveMessage | zombie/zombie.py:90-96 | the new error's argument is `None` exactly when the rule has no message; a plain string is used as it is, even if it contains `$`; a template is substituted with the original error's `str()` |
| Zombie.PlainIgnoresOriginal | zombie/zombie.py:90-104 | a plain-string message is passed on unchanged and does not depend on the original error's message |
| Zombie.AbsentStaysNone | zombie/zombie.py:90-109 | an absent message reaches the new error as `None`, never as the original error's message |
| Zombie.TemplateFillsOriginal | zombie/zombie.py:93-96 | when the text around the placeholders contains no `$`, a template message has every `${original_error_message}` replaced by `str()` of the original error and that text kept |
| Zombie.TransformAndRaise | zombie/zombie.py:71-109 | it always raises an error of exactly the rule's new class, built from the resolved message, whose cause is the original instance when `from_error` is set and none otherwise |
| Zombie.FirstMatch | zombie/zombie.py:136-138 | it finds the first rule in declaration order whose original class the error is an instance of, or reports that none is |
| Zombie.RaiseTransformed | zombie/zombie.py:112-140 | it never returns normally; the first matching rule decides the raised error; with no matching rule, including no rules at all, the original instance is raised unchanged |
| Zombie.ReraisedIffUnmatched | zombie/zombie.py:136-140 | the original instance comes back if and only if no rule matches it |
| Zombie.LaterRulesIgnored | zombie/zombie.py:136-138 | once a rule matches, rules after it are never consulted: appending rules changes nothing |
| Zombie.UnmatchedRulesSkipped | zombie/zombie.py:136-138 | rules that do not match are passed over as if they were absent |
| Zombie.AncestorRuleMatches | zombie/zombie.py:137 | a rule for a class catches instances of its subclasses |
| Guards.NewReraise | zombie/zombie.py:235-249 | a single rule becomes a one-element tuple; an iterable becomes a tuple of the same rules in the same order; a non-iterable argument is rejected with `TypeError`, and only such an argument is |
| Guards.SingleIsOneElementSequence | zombie/zombie.py:243-249 | a single rule and the one-element sequence holding it build the same guard, and rebuilding a guard from its own rules changes nothing |
| Guards.Enter | zombie/zombie.py:251-252 | entering the guard yields the guard itself |
| Guards.Exit | zombie/zombie.py:254-269 | with no error in flight it returns `False`; with an error in flight it raises what the matcher raises for that error; it never returns `True` |
| Guards.GuardedBlock | zombie/zombie.py:251-269 | a guarded block that completes normally is unaffected; one that raises ends with exactly the matcher's outcome for that error |
| Guards.Wrapper | zombie/zombie.py:207-216 | the wrapped call's return value passes through unchanged; any error it raises is replaced by what the matcher raises, and the wrapper then never returns |
| Guards.SuccessIgnoresRules | zombie/zombie.py:207-216 | when the wrapped call succeeds no rule is consulted: any two rule sets give the same result |
| Guards.Decorate | zombie/zombie.py:271-289 | the decorated callable behaves as the wrapper on every argument |
| Guards.Call | zombie/zombie.py:291-293 | calling the guard on a callable gives the same callable as `decorate` |
| Guards.GuardFormsAgree | zombie/zombie.py:254-293 | the decorator and the context manager turn the same failure into the same error |
| Guards.NestedGuards | zombie/zombie.py:254-269 | an outer guard sees exactly the error an inner guard raised |
| Scenarios.TemplateMessageScenario | tests/test_zombie.py:47-59 | a `KeyError` under a template rule becomes a `ValueError` whose argument is `Error: ` followed by the original's `str()`, caused by the original |
| Scenarios.PlainMessageScenario | tests/test_zombie.py:61-73 | a plain-message rule without chaining raises a `ValueError` with that message and no cause |
| Scenarios.NoRulesScenario | zombie/zombie.py:136-140 | with no rules the original `KeyError` is raised again |
| Scenarios.InheritanceScenario | tests/test_zombie.py:174-186 | a rule for `Exception` turns a `KeyError` raised in a guarded block into a `ValueError` with the message `An error occurred`, chained from the `KeyError` |
| Scenarios.SecondRuleScenario | tests/test_zombie.py:188-229 | with rules for `KeyError` and `TypeError`, a `TypeError` becomes the second rule's `RuntimeError`, caused by the original |
| Scenarios.SpecificBeforeGeneralScenario | zombie/zombie.py:136-138 | a `KeyError` rule listed before an `Exception` rule decides the outcome for a `KeyError` |
| Scenarios.DecoratorWithoutErrorScenario | tests/test_zombie.py:160-172 | a decorated callable that returns normally returns the same value |
| Scenarios.BadConstructionScenario | tests/test_zombie.py:43-45 | `Reraise(1)` is rejected with `TypeError` |

## Left out

- Logging (the `_LOG` calls): a diagnostic side channel. It has no effect on the outcome only when `str()` of the error and `repr()` of the rule succeed, because the log messages at zombie/zombie.py:89 and :102 are built eagerly whatever the log level. The model assumes both succeed.
- `ExceptionTransformation.__repr__`: diagnostic only, and it depends on Python's `repr` quoting.
- `str()` of an exception: the original error's rendered message is an input, and `str()` of a new error comes from the `Runtime` parameter.
- Object identity: a new instance's identity comes from the `Runtime` parameter. A decorated callable is modelled against one fixed `Runtime`.
- Tracebacks, `__context__` and `__suppress_context__`: only `__cause__` is modelled.
- Exception arguments other than a single `None` or string: an observed error's `arg` is an `Option<string>`. Only its rendered message and cause matter to the engine.
- `original_exception` given as a tuple of classes: each rule names one class. `isinstance` accepts a tuple, but when such a rule matches, the source itself fails with `AttributeError`, because the log message at zombie/zombie.py:89 calls `repr()` of the rule, which reads `original_exception.__name__` (line 64). The rule's new class is never raised.
- Iterables whose items are not rules, such as a string: they are not checked at construction and fail only when matched. The model keeps rules statically typed.
- `functools.wraps` metadata copying, and the calling convention of `*args, **kwargs`: a wrapped callable is a function from one argument value to its completion.
- The `exc_type` and `traceback` arguments of `__exit__`: the code reads only the exception value.
- The final `return False` of `__exit__` after the matcher, and the final `return result` of the wrapper after an error: both are unreachable, because the matcher always raises. The model keeps the first as a branch that cannot be taken.
- Kinds.IsA: only classes with the default metaclass are modelled. A metaclass that overrides `__instancecheck__`, such as `abc.ABCMeta` with virtual subclasses added by `register`, makes `isinstance` accept classes outside the method resolution order, and the model never does.
- Zombie.MatchesOnlyMro: for the same reason, a rule whose original class is an ABC with registered virtual subclasses also catches those subclasses in the source, not in the model.
- Kinds.IsA: compares class identities, not `__name__`. Two distinct classes with the same `__name__`, defined in different modules, are told apart only if their `ClassName`s differ, for instance by being qualified names.
- Zombie.TransformAndRaise: assumes the rule's new class is an exception class whose constructor accepts one positional argument. A class that cannot be built that way, such as `UnicodeDecodeError` or a user class needing more arguments, makes the source raise the constructor's `TypeError` instead. That case is not modelled.
- Zombie.ResolveMessage: a template is a plain `string.Template`. A subclass that redefines `delimiter`, `idpattern`, `braceidpattern`, `flags` or `pattern` reads its text differently, and the model does not cover it.
- Zombie.AbsentStaysNone: does not prove the docstring's claim that an absent message means "the original error message will be used", because the code passes `None` instead.
- Scenarios.TemplateMessageScenario: is stated for any rendered message rather than the literal `'Original error message'`, because evaluating the substitution on literal strings is expensive for the verifier. The test's string is one instance.

=== FILE: errors.dfy ===
/** Exception instances, the completion of a Python call, and the host
    facilities the engine relies on. */
module Errors {
  import opened Wrappers
  import opened Kinds

  /** A raised exception instance.
      - `id` tells instances apart, so "the same instance" is `==`;
      - `arg` is the single constructor argument (`None` or a string);
      - `rendered` is `str()` of the instance, taken as given;
      - `cause` is `__cause__`. */
  datatype Error = Error(
    id: nat,
    kind: Kind,
    arg: Option<string>,
    rendered: string,
    cause: Option<Error>)

  /** How a Python call completes: it returns a value or raises. */
  datatype Completion<+T> = Normal(value: T) | Raised(error: Error)

  /** What the host interpreter supplies when a new exception is built:
      the identity of the fresh instance and how `str()` renders an
      instance of a class built from a given argument. */
  datatype Runtime = Runtime(freshId: nat, render: (Kind, Option<string>) -> string)
}

=== FILE: guards.dfy ===
/** `Reraise`, usable as a context manager around a block and as a
    decorator around a callable; both hand errors to the one matcher. */
module Guards {
  import opened Wrappers
  import opened Errors
  import opened Zombie

  /** A guard: its rules as a tuple, in the order given. */
  datatype Reraise = Reraise(transformations: seq<ExceptionTransformation>)

  /** What `Reraise(...)` may be given: one rule, an iterable whose items
      are rules, or a value that is neither (such as an `int`). */
  datatype Argument =
    | Single(rule: ExceptionTransformation)
    | Iterable(items: seq<ExceptionTransformation>)
    | NotIterable

  /** The `TypeError` that `tuple()` raises for a value it cannot iterate. */
  datatype ConstructionError = NotIterableTypeError

  /** `Reraise.__init__`: one rule becomes a one-element tuple, an iterable
      becomes a tuple in the same order, anything else is rejected. */
  function NewReraise(arg: Argument): (r: Result<Reraise, ConstructionError>)
    ensures r.Failure? <==> arg.NotIterable?
    ensures arg.Single? ==> r == Success(Reraise([arg.rule]))
    ensures arg.Iterable? ==> r == Success(Reraise(arg.items))
  {
    match arg
    case Single(rule) => Success(Reraise([rule]))
    case Iterable(items) => Success(Reraise(items))
    case NotIterable => Failure(NotIterableTypeError)
  }

  /** A single rule and the one-element sequence holding it build the same
      guard, and a guard rebuilt from its own rules is unchanged. */
  lemma SingleIsOneElementSequence(t: ExceptionTransformation, g: Reraise)
    ensures NewReraise(Single(t)) == NewReraise(Iterable([t]))
    ensures NewReraise(Iterable(g.transformations)) == Success(g)
  {
  }

  /** `Reraise.__enter__`: the guard itself. */
  function Enter(g: Reraise): (r: Reraise)
    ensures r == g
  {
    g
  }

  /** `Reraise.__exit__`, given the exception in flight, if any. It never
      reports the exception as handled. */
  function Exit(g: Reraise, inFlight: Option<Error>, rt: Runtime): (c: Completion<bool>)
    ensures c != Normal(true)
    ensures inFlight.None? ==> c == Normal(false)
    ensures inFlight.Some? ==> c.Raised?
    ensures inFlight.Some? ==> c.error == RaiseTransformed(g.transformations, inFlight.value, rt).error
  {
    match inFlight
    case None => Normal(false)
    case Some(error) =>
      match RaiseTransformed(g.transformations, error, rt)
      case Raised(x) => Raised(x)
      case Normal(_) => Normal(false)
  }

  /** A `with g:` statement whose block completes as `body`: enter, run the
      block, then exit; a truthy exit result would suppress the error. */
  function GuardedBlock(g: Reraise, body: Completion<()>, rt: Runtime): (c: Completion<()>)
    ensures body.Normal? ==> c == body
    ensures body.Raised? ==> c == RaiseTransformed(g.transformations, body.error, rt)
  {
    var guard := Enter(g);
    match body
    case Normal(_) =>
      (match Exit(guard, None, rt)
       case Raised(x) => Raised(x)
       case Normal(_) => body)
    case Raised(e) =>
      match Exit(guard, Some(e), rt)
      case Raised(x) => Raised(x)
      case Normal(handled) => if handled then Normal(()) else Raised(e)
  }

  /** `_reraise_decorator(...)(f)`'s `wrapper`, called with `args`: the
      callable's return value passes through; any error it raises goes to
      the matcher. */
  function Wrapper<A, T>(rules: seq<ExceptionTransformation>, f: A -> Completion<T>,
                         rt: Runtime, args: A): (c: Completion<T>)
    ensures f(args).Normal? ==> c == f(args)
    ensures f(args).Raised? ==> c.Raised?
    ensures f(args).Raised? ==> c.error == RaiseTransformed(rules, f(args).error, rt).error
  {
    match f(args)
    case Normal(result) => Normal(result)
    case Raised(error) => Raised(RaiseTransformed(rules, error, rt).error)
  }

  /** On success no rule is consulted: the rules make no difference. */
  lemma SuccessIgnoresRules<A, T>(rules1: seq<ExceptionTransformation>,
                                  rules2: seq<ExceptionTransformation>,
                                  f: A -> Completion<T>, rt: Runtime, args: A)
    requires f(args).Normal?
    ensures Wrapper(rules1, f, rt, args) == Wrapper(rules2, f, rt, args) == f(args)
  {
  }

  /** `Reraise.decorate`: a callable that behaves as the wrapper on every
      argument. */
  function Decorate<A(!new), T>(g: Reraise, f: A -> Completion<T>, rt: Runtime): (w: A -> Completion<T>)
    ensures forall args :: w(args) == Wrapper(g.transformations, f, rt, args)
  {
    args => Wrapper(g.transformations, f, rt, args)
  }

  /** `Reraise.__call__`: the same callable `decorate` returns. */
  function Call<A(!new), T>(g: Reraise, f: A -> Completion<T>, rt: Runtime): (w: A -> Completion<T>)
    ensures forall args :: w(args) == Decorate(g, f, rt)(args)
  {
    Decorate(g, f, rt)
  }

  /** The completion of a call with its return value dropped. */
  function Discard<T>(c: Completion<T>): Completion<()>
  {
    match c
    case Normal(_) => Normal(())
    case Raised(e) => Raised(e)
  }

  /** Both guard forms agree: decorating a callable and calling it fails
      exactly as guarding a block that makes the same call. */
  lemma GuardFormsAgree<A(!new), T>(g: Reraise, f: A -> Completion<T>, rt: Runtime, args: A)
    ensures Discard(Call(g, f, rt)(args)) == GuardedBlock(g, Discard(f(args)), rt)
  {
  }

  /** Guards nest: an outer guard sees what the inner guard raises. */
  lemma NestedGuards(inner: Reraise, outer: Reraise, e: Error, rt1: Runtime, rt2: Runtime)
    ensures GuardedBlock(outer, GuardedBlock(inner, Raised(e), rt1), rt2)
         == RaiseTransformed(outer.transformations,
                             RaiseTransformed(inner.transformations, e, rt1).error, rt2)
  {
  }
}

=== FILE: kinds.dfy ===
/** Exception classes as a finite class hierarchy. */
module Kinds {

  /** The identity of a class, such as its qualified name: two kinds with
      the same `ClassName` are the same class. */
  type ClassName = string

  /** An exception class: its own name and the names of its proper
      ancestors, in method resolution order. */
  datatype Kind = Kind(name: ClassName, ancestors: seq<ClassName>)

  /** `__mro__` of a class: the class itself, then its ancestors. */
  function Mro(k: Kind): seq<ClassName>
  {
    [k.name] + k.ancestors
  }

  /** `isinstance(e, target)` for an instance `e` whose class is `k`, when
      `target` has the default metaclass: `target` occurs in the method
      resolution order of `k`. */
  predicate IsA(k: Kind, target: Kind)
    ensures IsA(k, target) <==> target.name in Mro(k)
  {
    target.name == k.name || target.name in k.ancestors
  }

  /** `sub` is a subclass of `sup` whose ancestor list includes all of
      `sup`'s, as Python's method resolution order guarantees. */
  predicate Inherits(sub: Kind, sup: Kind)
  {
    && IsA(sub, sup)
    && forall n :: n in sup.ancestors ==> n in sub.ancestors
  }

  /** Is-a is closed under inheritance: whatever catches a class also
      catches its subclasses. */
  lemma IsATransitive(a: Kind, b: Kind, c: Kind)
    requires Inherits(a, b)
    requires IsA(b, c)
    ensures IsA(a, c)
  {
  }

  // A few of Python's built-in exception classes.
  const BaseException: Kind := Kind("BaseException", ["object"])
  const Exception: Kind := Kind("Exception", ["BaseException", "object"])
  const LookupError: Kind := Kind("LookupError", ["Exception", "BaseException", "object"])
  const KeyError: Kind := Kind("KeyError", ["LookupError", "Exception", "BaseException", "object"])
  const ValueError: Kind := Kind("ValueError", ["Exception", "BaseException", "object"])
  const TypeError: Kind := Kind("TypeError", ["Exception", "BaseException", "object"])
  const RuntimeError: Kind := Kind("RuntimeError", ["Exception", "BaseException", "object"])
}

=== FILE: scenarios.dfy ===
/** The repository's test cases, stated on the model. */
module Scenarios {
  import opened Wrappers
  import opened Kinds
  import opened Errors
  import opened Zombie
  import opened Guards
  import StringTemplate

  /** `KeyError('Original error message')`, whose `str()` is quoted. */
  const OriginalKeyError: Error :=
    Error(1, KeyError, Some("Original error message"), "'Original error message'", None)

  /** A runtime whose next instance is number 2. */
  function Host(): Runtime
  {
    Runtime(2, (k, arg: Option<string>) => if arg.Some? then arg.value else "None")
  }

  /** A template rule substitutes the original error's message, here the
      quoted `'Original error message'` or any other, and chains the new
      error from the original. */
  lemma TemplateMessageScenario(rendered: string)
    ensures var e := Error(1, KeyError, Some("Original error message"), rendered, None);
            var t := ExceptionTransformation(KeyError, ValueError,
                                             Template("Error: ${original_error_message}"), true);
            var c := TransformAndRaise(t, e, Host());
            && c.error.kind == ValueError
            && c.error.arg == Some("Error: " + rendered)
            && c.error.cause == Some(e)
  {
    ErrorTemplateParts(rendered);
    TemplateFillsOriginal(["Error: ", ""], rendered);
  }

  /** The test's template is the text `Error: ` followed by the placeholder. */
  lemma ErrorTemplateParts(rendered: string)
    ensures forall i :: 0 <= i < 2 ==> StringTemplate.NoDelimiter(["Error: ", ""][i])
    ensures StringTemplate.Join(["Error: ", ""], StringTemplate.Placeholder) == "Error: ${original_error_message}"
    ensures StringTemplate.Join(["Error: ", ""], rendered) == "Error: " + rendered
  {
    var parts := ["Error: ", ""];
    assert parts[1..] == [""];
    assert StringTemplate.NoDelimiter(parts[0]);
    assert StringTemplate.NoDelimiter(parts[1]);
    assert StringTemplate.Placeholder == "${original_error_message}";
    assert StringTemplate.Join(parts, StringTemplate.Placeholder)
        == "Error: " + StringTemplate.Placeholder + "";
  }

  /** A plain message is used as it is, with no cause when not chained. */
  lemma PlainMessageScenario()
    ensures var t := ExceptionTransformation(KeyError, ValueError, Plain("An error occurred"), false);
            var c := TransformAndRaise(t, OriginalKeyError, Host());
            && c.error.kind == ValueError
            && c.error.arg == Some("An error occurred")
            && c.error.cause == None
  {
  }

  /** With no rules the original error is raised again. */
  lemma NoRulesScenario()
    ensures RaiseTransformed([], OriginalKeyError, Host()) == Raised(OriginalKeyError)
  {
  }

  /** A rule for `Exception` catches a `KeyError` raised in a guarded block. */
  lemma InheritanceScenario()
    ensures var t := ExceptionTransformation(Exception, ValueError, Plain("An error occurred"), true);
            var c := GuardedBlock(Reraise([t]), Raised(OriginalKeyError), Host());
            && c.Raised?
            && c.error.kind == ValueError
            && c.error.arg == Some("An error occurred")
            && c.error.cause == Some(OriginalKeyError)
  {
  }

  /** With two rules, a `TypeError` passes the `KeyError` rule by and is
      turned into a `RuntimeError` by the second. */
  lemma SecondRuleScenario()
    ensures var rules := [
              ExceptionTransformation(KeyError, ValueError, Plain("List transformation error"), true),
              ExceptionTransformation(TypeError, RuntimeError, Plain("Another list transformation error"), true)];
            var e := Error(1, TypeError, Some("Original type error message"), "Original type error message", None);
            var c := GuardedBlock(Reraise(rules), Raised(e), Host());
            && c.Raised?
            && c.error.kind == RuntimeError
            && c.error.arg == Some("Another list transformation error")
            && c.error.cause == Some(e)
  {
    var rules := [
      ExceptionTransformation(KeyError, ValueError, Plain("List transformation error"), true),
      ExceptionTransformation(TypeError, RuntimeError, Plain("Another list transformation error"), true)];
    var e := Error(1, TypeError, Some("Original type error message"), "Original type error message", None);
    assert !Matches(rules[0], e);
    assert Matches(rules[1], e);
  }

  /** A specific rule listed first wins over a broader one listed after it. */
  lemma SpecificBeforeGeneralScenario()
    ensures var rules := [
              ExceptionTransformation(KeyError, ValueError, Absent, false),
              ExceptionTransformation(Exception, RuntimeError, Absent, false)];
            var c := RaiseTransformed(rules, OriginalKeyError, Host());
            && c.error.kind == ValueError
            && c.error.arg == None
            && c.error.cause == None
  {
  }

  /** A decorated callable that returns normally returns the same value. */
  lemma DecoratorWithoutErrorScenario()
    ensures var t := ExceptionTransformation(KeyError, ValueError, Plain("An error occurred"), true);
            var f := (u: ()) => Normal(true);
            Call(Reraise([t]), f, Host())(()) == Normal(true)
  {
  }

  /** `Reraise(1)` is rejected with `TypeError`. */
  lemma BadConstructionScenario()
    ensures NewReraise(NotIterable) == Failure(NotIterableTypeError)
  {
  }
}

=== FILE: string_template.dfy ===
/** Python's `string.Template.safe_substitute`, for the one mapping the
    engine passes: `original_error_message` bound to the original error's
    rendered message.

    A template is read left to right as a sequence of tokens, as the
    class's regular expression does: `$$` (escaped), `$name` (named, the
    longest identifier), `${name}` (braced), a `$` that starts none of
    these (invalid), and every other character (literal). Identifiers are
    ASCII letters, digits and `_`, not starting with a digit; letters of
    either case. The key itself is compared case-sensitively. */
module StringTemplate {

  const Delimiter: char := '$'

  /** The only key in the substitution mapping. */
  const Key: string := "original_error_message"

  /** The placeholder `${original_error_message}`. */
  const Placeholder: string := "${" + Key + "}"

  predicate IsIdentStart(c: char)
  {
    'a' <= c <= 'z' || 'A' <= c <= 'Z' || c == '_'
  }

  predicate IsIdentChar(c: char)
  {
    IsIdentStart(c) || '0' <= c <= '9'
  }

  /** A Python identifier in the template's default pattern. */
  predicate IsIdentifier(s: string)
  {
    |s| > 0 && IsIdentStart(s[0]) && forall i :: 0 <= i < |s| ==> IsIdentChar(s[i])
  }

  /** No delimiter anywhere in `s`. */
  predicate NoDelimiter(s: string)
  {
    forall i :: 0 <= i < |s| ==> s[i] != Delimiter
  }

  /** Length of the longest prefix of `s` made of identifier characters. */
  function IdentLength(s: string): (n: nat)
    ensures n <= |s|
  {
    if |s| > 0 && IsIdentChar(s[0]) then 1 + IdentLength(s[1..]) else 0
  }

  /** The counted prefix is all identifier characters and the character
      after it, if any, is not one. */
  lemma {:induction false} IdentLengthMaximal(s: string)
    ensures forall i :: 0 <= i < IdentLength(s) ==> IsIdentChar(s[i])
    ensures IdentLength(s) == |s| || !IsIdentChar(s[IdentLength(s)])
    decreases |s|
  {
    if |s| > 0 && IsIdentChar(s[0]) {
      IdentLengthMaximal(s[1..]);
      forall i | 0 < i < IdentLength(s)
        ensures IsIdentChar(s[i])
      {
        assert s[i] == s[1..][i - 1];
      }
    }
  }

  /** Conversely, a prefix of identifier characters followed by the end or
      by another character is exactly what is counted. */
  lemma {:induction false} IdentLengthIs(s: string, k: nat)
    requires k <= |s|
    requires forall i :: 0 <= i < k ==> IsIdentChar(s[i])
    requires k == |s| || !IsIdentChar(s[k])
    ensures IdentLength(s) == k
    decreases k
  {
    if k > 0 {
      assert s[1..][k - 1..] == s[k..];
      IdentLengthIs(s[1..], k - 1);
    }
  }

  datatype Token =
    | Literal(c: char)
    | Escaped
    | Named(name: string)
    | Braced(name: string)
    | Invalid

  /** The text a token was read from. */
  function Spelling(tok: Token): string
  {
    match tok
    case Literal(c) => [c]
    case Escaped => [Delimiter, Delimiter]
    case Named(n) => [Delimiter] + n
    case Braced(n) => [Delimiter, '{'] + n + ['}']
    case Invalid => [Delimiter]
  }

  /** Reads the first token of `t`, returning it and its length. A `$`
      starts `$$`, then a named placeholder, then a braced one, and
      otherwise stands alone as an invalid placeholder. */
  function Lex(t: string): (res: (Token, nat))
    requires |t| > 0
    ensures 0 < res.1 <= |t|
    ensures Spelling(res.0) == t[..res.1]
    ensures res.0.Literal? <==> t[0] != Delimiter
  {
    if t[0] != Delimiter then
      assert t[..1] == [t[0]];
      (Literal(t[0]), 1)
    else if |t| >= 2 && t[1] == Delimiter then
      assert t[..2] == [t[0], t[1]];
      (Escaped, 2)
    else if |t| >= 2 && IsIdentStart(t[1]) then
      LexNamed(t)
    else if |t| >= 2 && t[1] == '{' then
      LexBraced(t)
    else
      assert t[..1] == [t[0]];
      (Invalid, 1)
  }

  /** Which token a `$` starts: `$$` is escaped; `$` and an identifier
      start is the named placeholder; `${` is tried as a braced one; a `$`
      that starts none of these is invalid and consumes only itself. */
  lemma LexDelimiter(t: string)
    requires |t| > 0 && t[0] == Delimiter
    ensures Lex(t).0.Escaped? <==> |t| >= 2 && t[1] == Delimiter
    ensures |t| >= 2 && t[1] == Delimiter ==> Lex(t) == (Escaped, 2)
    ensures |t| >= 2 && IsIdentStart(t[1]) ==> Lex(t) == LexNamed(t)
    ensures |t| >= 2 && t[1] == '{' ==> Lex(t) == LexBraced(t)
    ensures |t| >= 2 && t[1] != Delimiter && t[1] != '{' && !IsIdentStart(t[1]) ==> Lex(t) == (Invalid, 1)
    ensures Lex(t).0.Invalid? <==> Lex(t).1 == 1
    ensures |t| == 1 ==> Lex(t) == (Invalid, 1)
  {
  }

  /** `$` followed by the longest identifier. */
  function LexNamed(t: string): (res: (Token, nat))
    requires |t| >= 2 && t[0] == Delimiter && IsIdentStart(t[1])
    ensures 1 < res.1 <= |t|
    ensures res.0.Named? && Spelling(res.0) == t[..res.1]
  {
    var n := IdentLength(t[1..]);
    assert t[..1 + n] == [t[0]] + t[1..1 + n];
    (Named(t[1..1 + n]), 1 + n)
  }

  /** The name of a named placeholder is the longest identifier after the
      `$`: the character after it, if any, is not an identifier character. */
  lemma NamedIsLongestIdentifier(t: string)
    requires |t| >= 2 && t[0] == Delimiter && IsIdentStart(t[1])
    ensures IsIdentifier(LexNamed(t).0.name)
    ensures LexNamed(t).1 == |t| || !IsIdentChar(t[LexNamed(t).1])
  {
    var n := IdentLength(t[1..]);
    var name := t[1..1 + n];
    IdentLengthMaximal(t[1..]);
    forall i | 0 <= i < n
      ensures IsIdentChar(name[i])
    {
      assert name[i] == t[1..][i];
    }
  }

  /** `${` followed by an identifier and `}`; otherwise the `$` alone is
      an invalid placeholder. */
  function LexBraced(t: string): (res: (Token, nat))
    requires |t| >= 2 && t[0] == Delimiter && t[1] == '{'
    ensures 0 < res.1 <= |t|
    ensures (res.0.Braced? || res.0.Invalid?) && Spelling(res.0) == t[..res.1]
  {
    var n := IdentLength(t[2..]);
    if n > 0 && IsIdentStart(t[2]) && 2 + n < |t| && t[2 + n] == '}' then
      assert t[..3 + n] == [t[0], t[1]] + t[2..2 + n] + [t[2 + n]];
      (Braced(t[2..2 + n]), 3 + n)
    else
      assert t[..1] == [t[0]];
      (Invalid, 1)
  }

  /** The name of a braced placeholder is an identifier; an invalid
      placeholder consumes only the `$`. */
  lemma BracedIsIdentifier(t: string)
    requires |t| >= 2 && t[0] == Delimiter && t[1] == '{'
    ensures LexBraced(t).0.Braced? ==> IsIdentifier(LexBraced(t).0.name)
    ensures LexBraced(t).0.Invalid? ==> LexBraced(t).1 == 1
  {
    var n := IdentLength(t[2..]);
    var name := t[2..2 + n];
    IdentLengthMaximal(t[2..]);
    forall i | 0 <= i < n
      ensures IsIdentChar(name[i])
    {
      assert name[i] == t[2..][i];
    }
  }

  /** Whenever an identifier and `}` follow `${`, the braced placeholder is
      what is read. */
  lemma LexBracedFinds(t: string, k: nat)
    requires |t| >= 2 && t[0] == Delimiter && t[1] == '{'
    requires 2 < k < |t| && t[k] == '}' && IsIdentifier(t[2..k])
    ensures LexBraced(t) == (Braced(t[2..k]), k + 1)
  {
    var s := t[2..];
    assert forall i :: 0 <= i < k - 2 ==> s[i] == t[2..k][i];
    assert s[k - 2] == t[k];
    IdentLengthIs(s, k - 2);
  }

  /** Concatenated spellings of a token sequence. */
  function Unlex(toks: seq<Token>): string
  {
    if toks == [] then [] else Spelling(toks[0]) + Unlex(toks[1..])
  }

  /** The token sequence of a template; lexing loses no text. */
  function Tokens(t: string): (toks: seq<Token>)
    ensures Unlex(toks) == t
    decreases |t|
  {
    if |t| == 0 then []
    else
      var next := Lex(t);
      assert t == t[..next.1] + t[next.1..];
      [next.0] + Tokens(t[next.1..])
  }

  /** A token whose rendering is its own spelling. */
  predicate KeepsSpelling(tok: Token)
  {
    match tok
    case Escaped => false
    case Named(n) => n != Key
    case Braced(n) => n != Key
    case _ => true
  }

  /** What `safe_substitute` emits for one token: the value for the key,
      one `$` for `$$`, and the token's own text for everything else. */
  function Render(tok: Token, value: string): (r: string)
    ensures KeepsSpelling(tok) ==> r == Spelling(tok)
  {
    match tok
    case Literal(c) => [c]
    case Escaped => [Delimiter]
    case Named(n) => if n == Key then value else Spelling(tok)
    case Braced(n) => if n == Key then value else Spelling(tok)
    case Invalid => [Delimiter]
  }

  /** `Template(t).safe_substitute(original_error_message=value)`. It is
      total: no template makes it fail. */
  function Substitute(t: string, value: string): string
    decreases |t|
  {
    if |t| == 0 then []
    else
      var next := Lex(t);
      Render(next.0, value) + Substitute(t[next.1..], value)
  }

  /** Substitution emits the first token's rendering, then goes on after it. */
  lemma SubstituteStep(t: string, value: string)
    requires |t| > 0
    ensures Substitute(t, value) == Render(Lex(t).0, value) + Substitute(t[Lex(t).1..], value)
  {
  }

  /** A character other than the delimiter is copied, and substitution
      goes on with the next character. */
  lemma SubstituteLiteral(t: string, value: string)
    requires |t| > 0 && t[0] != Delimiter
    ensures Substitute(t, value) == [t[0]] + Substitute(t[1..], value)
  {
    assert Lex(t) == (Literal(t[0]), 1);
  }

  /** A token that keeps its spelling is copied as written. */
  lemma SubstituteKept(t: string, value: string)
    requires |t| > 0 && KeepsSpelling(Lex(t).0)
    ensures Substitute(t, value) == t[..Lex(t).1] + Substitute(t[Lex(t).1..], value)
  {
    SubstituteStep(t, value);
  }

  /** The scanning loop: consume one token at a time from the front of
      the text still to be read. */
  method SafeSubstitute(t: string, value: string) returns (r: string)
    ensures r == Substitute(t, value)
  {
    r := [];
    var rest := t;
    while |rest| > 0
      invariant r + Substitute(rest, value) == Substitute(t, value)
      decreases |rest|
    {
      var (tok, n) := Lex(rest);
      StepPreserves(r, rest, value);
      r := r + Render(tok, value);
      rest := rest[n..];
    }
  }

  /** Emitting the first token of what is left and dropping it from the
      text keeps the loop's invariant. */
  lemma StepPreserves(r: string, rest: string, value: string)
    requires |rest| > 0
    ensures (r + Render(Lex(rest).0, value)) + Substitute(rest[Lex(rest).1..], value)
         == r + Substitute(rest, value)
  {
    SubstituteStep(rest, value);
    var emitted := Render(Lex(rest).0, value);
    var after := Substitute(rest[Lex(rest).1..], value);
    assert (r + emitted) + after == r + (emitted + after);
  }

  /** Text with no `$$` and no reference to the key comes back unchanged:
      unknown placeholders, malformed ones and stray `$` stay literal. */
  lemma {:induction false} KeepsOtherText(t: string, value: string)
    requires forall k :: 0 <= k < |Tokens(t)| ==> KeepsSpelling(Tokens(t)[k])
    ensures Substitute(t, value) == t
    decreases |t|
  {
    if |t| > 0 {
      var (tok, n) := Lex(t);
      var toks := Tokens(t);
      assert toks == [tok] + Tokens(t[n..]);
      assert KeepsSpelling(toks[0]);
      forall k | 0 <= k < |Tokens(t[n..])|
        ensures KeepsSpelling(Tokens(t[n..])[k])
      {
        assert Tokens(t[n..])[k] == toks[k + 1];
      }
      KeepsOtherText(t[n..], value);
      assert t == t[..n] + t[n..];
    }
  }

  /** Text without a delimiter passes through unchanged in front of the
      rest of the template. */
  lemma {:induction false} LiteralPrefix(a: string, b: string, value: string)
    requires NoDelimiter(a)
    ensures Substitute(a + b, value) == a + Substitute(b, value)
    decreases |a|
  {
    if |a| == 0 {
      assert a + b == b;
    } else {
      var t := a + b;
      var tail := a[1..];
      forall i | 0 <= i < |tail|
        ensures tail[i] != Delimiter
      {
        assert tail[i] == a[i + 1];
      }
      assert t[0] == a[0];
      SubstituteLiteral(t, value);
      assert t[1..] == tail + b;
      LiteralPrefix(tail, b, value);
      assert [a[0]] + (tail + Substitute(b, value)) == ([a[0]] + tail) + Substitute(b, value);
      assert a == [a[0]] + tail;
    }
  }

  /** Text without a delimiter is returned as it is. */
  lemma PlainTextUnchanged(t: string, value: string)
    requires NoDelimiter(t)
    ensures Substitute(t, value) == t
  {
    LiteralPrefix(t, [], value);
    assert t + [] == t;
  }

  /** `${original_error_message}` becomes the value. */
  lemma PlaceholderFilled(b: string, value: string)
    ensures Substitute(Placeholder + b, value) == value + Substitute(b, value)
  {
    var t := Placeholder + b;
    LexPlaceholder(b);
    SubstituteStep(t, value);
    assert t[|Placeholder|..] == b;
  }

  /** The placeholder is read as one braced token naming the key. */
  lemma LexPlaceholder(b: string)
    ensures Lex(Placeholder + b) == (Braced(Key), |Placeholder|)
  {
    var t := Placeholder + b;
    var s := t[2..];
    assert s == Key + "}" + b;
    IdentLengthIs(s, |Key|);
    assert t[2..2 + |Key|] == Key;
  }

  /** A template that starts with the bare `$original_error_message`,
      not followed by an identifier character, has it replaced by the
      value. */
  lemma BareFilled(t: string, value: string)
    requires |t| > |Key| && t[0] == Delimiter && t[1..1 + |Key|] == Key
    requires |t| == 1 + |Key| || !IsIdentChar(t[1 + |Key|])
    ensures Substitute(t, value) == value + Substitute(t[1 + |Key|..], value)
  {
    var k := 1 + |Key|;
    KeyStartsRun(t);
    assert |Key| == |t[1..]| || t[1..][|Key|] == t[k];
    IdentLengthIs(t[1..], |Key|);
    LexNamedSpan(t, k);
    SubstituteStep(t, value);
  }

  /** A template that starts with `$original_error_message` followed by
      more identifier characters names a longer, different key: the whole
      identifier is emitted as written. */
  lemma BareLongerNameKept(t: string, value: string)
    requires |t| > 1 + |Key| && t[0] == Delimiter && t[1..1 + |Key|] == Key
    requires IsIdentChar(t[1 + |Key|])
    ensures var k := 1 + IdentLength(t[1..]);
            && k > 1 + |Key|
            && Substitute(t, value) == t[..k] + Substitute(t[k..], value)
  {
    var k := 1 + IdentLength(t[1..]);
    LongerRun(t);
    assert t[1..k] != Key by {
      assert |t[1..k]| != |Key|;
    }
    NamedSpanKept(t, k, value);
  }

  /** The identifier run after `$original_error_message` and one more
      identifier character is longer than the key. */
  lemma LongerRun(t: string)
    requires |t| > 1 + |Key| && t[0] == Delimiter && t[1..1 + |Key|] == Key
    requires IsIdentChar(t[1 + |Key|])
    ensures IsIdentStart(t[1]) && IdentLength(t[1..]) > |Key|
  {
    var s := t[1..];
    KeyStartsRun(t);
    forall i | 0 <= i < |Key| + 1
      ensures IsIdentChar(s[i])
    {
      if i == |Key| {
        assert s[i] == t[1 + |Key|];
      }
    }
    IdentLengthAtLeast(s, |Key| + 1);
  }

  /** After a `$`, the key's characters are all identifier characters. */
  lemma KeyStartsRun(t: string)
    requires |t| > |Key| && t[0] == Delimiter && t[1..1 + |Key|] == Key
    ensures IsIdentStart(t[1])
    ensures forall i :: 0 <= i < |Key| ==> IsIdentChar(t[1..][i])
  {
    KeyIsIdentifier();
    forall i | 0 <= i < |Key|
      ensures IsIdentChar(t[1..][i])
    {
      assert t[1..][i] == t[1..1 + |Key|][i];
    }
    assert t[1] == t[1..1 + |Key|][0];
  }

  /** A prefix of identifier characters is a lower bound on the run. */
  lemma {:induction false} IdentLengthAtLeast(s: string, k: nat)
    requires k <= |s|
    requires forall i :: 0 <= i < k ==> IsIdentChar(s[i])
    ensures IdentLength(s) >= k
    decreases k
  {
    if k > 0 {
      forall i | 0 <= i < k - 1
        ensures IsIdentChar(s[1..][i])
      {
        assert s[1..][i] == s[i + 1];
      }
      IdentLengthAtLeast(s[1..], k - 1);
    }
  }

  /** A named placeholder other than the key, spanning the first `k`
      characters, is copied as written. */
  lemma NamedSpanKept(t: string, k: nat, value: string)
    requires 1 < k <= |t| && t[0] == Delimiter && IsIdentStart(t[1])
    requires IdentLength(t[1..]) == k - 1 && t[1..k] != Key
    ensures Substitute(t, value) == t[..k] + Substitute(t[k..], value)
  {
    LexNamedSpan(t, k);
    SubstituteKept(t, value);
  }

  /** Whenever identifier characters run from just after a `$` up to `k`
      and stop there, the named placeholder spanning them is read. */
  lemma LexNamedFinds(t: string, k: nat)
    requires 1 < k <= |t| && t[0] == Delimiter && IsIdentStart(t[1])
    requires forall i :: 1 <= i < k ==> IsIdentChar(t[i])
    requires k == |t| || !IsIdentChar(t[k])
    ensures Lex(t) == (Named(t[1..k]), k)
  {
    var s := t[1..];
    forall i | 0 <= i < k - 1
      ensures IsIdentChar(s[i])
    {
      assert s[i] == t[i + 1];
    }
    assert k - 1 == |s| || s[k - 1] == t[k];
    IdentLengthIs(s, k - 1);
    LexNamedSpan(t, k);
  }

  /** The named placeholder after a `$` spans the identifier run. */
  lemma LexNamedSpan(t: string, k: nat)
    requires 1 < k <= |t| && t[0] == Delimiter && IsIdentStart(t[1])
    requires IdentLength(t[1..]) == k - 1
    ensures Lex(t) == (Named(t[1..k]), k)
  {
    LexDelimiter(t);
  }

  /** The key is an identifier. */
  lemma KeyIsIdentifier()
    ensures IsIdentifier(Key)
  {
  }

  /** `$$` becomes `$`. */
  lemma EscapedDelimiter(b: string, value: string)
    ensures Substitute([Delimiter, Delimiter] + b, value) == [Delimiter] + Substitute(b, value)
  {
    var t := [Delimiter, Delimiter] + b;
    assert t[2..] == b;
  }

  /** `parts` joined with `sep` between consecutive parts. */
  function Join(parts: seq<string>, sep: string): string
  {
    if |parts| == 0 then []
    else if |parts| == 1 then parts[0]
    else parts[0] + sep + Join(parts[1..], sep)
  }

  /** One step of joining: the first part, the separator, the rest. */
  lemma JoinStep(parts: seq<string>, sep: string)
    requires |parts| > 1
    ensures Join(parts, sep) == parts[0] + (sep + Join(parts[1..], sep))
  {
  }

  /** Every occurrence of the placeholder is replaced by the value and the
      text around the placeholders is kept. */
  lemma {:induction false} FillsEveryPlaceholder(parts: seq<string>, value: string)
    requires forall i :: 0 <= i < |parts| ==> NoDelimiter(parts[i])
    ensures Substitute(Join(parts, Placeholder), value) == Join(parts, value)
    decreases |parts|
  {
    if |parts| == 1 {
      PlainTextUnchanged(parts[0], value);
    } else if |parts| > 1 {
      var tail := parts[1..];
      forall i | 0 <= i < |tail|
        ensures NoDelimiter(tail[i])
      {
        assert tail[i] == parts[i + 1];
      }
      var rest := Join(tail, Placeholder);
      JoinStep(parts, Placeholder);
      JoinStep(parts, value);
      LiteralPrefix(parts[0], Placeholder + rest, value);
      PlaceholderFilled(rest, value);
      FillsEveryPlaceholder(tail, value);
    }
  }

  /** Doubles every delimiter, so the text reads back as itself. */
  function Escape(s: string): string
  {
    if |s| == 0 then []
    else if s[0] == Delimiter then [Delimiter, Delimiter] + Escape(s[1..])
    else [s[0]] + Escape(s[1..])
  }

  /** An escaped text substitutes back to itself, whatever the value. */
  lemma {:induction false} EscapeRoundTrip(s: string, value: string)
    ensures Substitute(Escape(s), value) == s
    decreases |s|
  {
    if |s| > 0 {
      EscapeRoundTrip(s[1..], value);
      if s[0] == Delimiter {
        EscapedDelimiter(Escape(s[1..]), value);
      } else {
        LiteralPrefix([s[0]], Escape(s[1..]), value);
      }
      assert s == [s[0]] + s[1..];
    }
  }
}

=== FILE: wrappers.dfy ===
/** Optional values and results used throughout the model. */
module Wrappers {

  /** An optional value; `None` plays the role of Python's `None`. */
  datatype Option<+T> = None | Some(value: T)

  /** The result of an operation that can be rejected. */
  datatype Result<+R, +E> = Success(value: R) | Failure(error: E)
}

=== FILE: zombie.dfy ===
/** Transformation rules and the matching engine: the first rule whose
    original kind the observed error is an instance of decides which new
    error is raised; with no such rule the observed error is raised again. */
module Zombie {
  import opened Wrappers
  import opened Kinds
  import opened Errors
  import StringTemplate

  /** The message a rule gives the new error. */
  datatype Message =
    | Absent                      // `None`
    | Plain(text: string)         // a `str`
    | Template(template: string)  // a `string.Template` with the default delimiter and pattern

  /** `ExceptionTransformation`: an immutable rule. */
  datatype ExceptionTransformation = ExceptionTransformation(
    originalException: Kind,
    newException: Kind,
    errorMessage: Message := Absent,
    fromError: bool := false)

  /** `isinstance(error, transform.original_exception)`. */
  predicate Matches(t: ExceptionTransformation, e: Error)
    ensures e.kind.name == t.originalException.name ==> Matches(t, e)
    ensures t.originalException.name in e.kind.ancestors ==> Matches(t, e)
  {
    IsA(e.kind, t.originalException)
  }

  /** A rule catches an error exactly when its original class occurs in
      the method resolution order of the error's class. */
  lemma MatchesOnlyMro(t: ExceptionTransformation, e: Error)
    ensures Matches(t, e) <==> t.originalException.name in Mro(e.kind)
  {
  }

  /** The argument the new error is constructed with, given the original
      error's rendered message. An absent message stays `None`. */
  function ResolveMessage(m: Message, original: string): (r: Option<string>)
    ensures r.None? <==> m.Absent?
    ensures m.Plain? ==> r == Some(m.text)
    ensures m.Template? ==> r == Some(StringTemplate.Substitute(m.template, original))
  {
    match m
    case Absent => None
    case Plain(text) => Some(text)
    case Template(template) => Some(StringTemplate.Substitute(template, original))
  }

  /** A plain message does not depend on the original error's message. */
  lemma PlainIgnoresOriginal(text: string, original1: string, original2: string)
    ensures ResolveMessage(Plain(text), original1) == ResolveMessage(Plain(text), original2) == Some(text)
  {
  }

  /** An absent message is passed on as `None`; it is never replaced by
      the original error's message. */
  lemma AbsentStaysNone(original: string)
    ensures ResolveMessage(Absent, original) == None
    ensures ResolveMessage(Absent, original) != Some(original)
  {
  }

  /** A template has `${original_error_message}` replaced by the original
      error's message wherever it occurs, and the text between the
      placeholders kept. */
  lemma TemplateFillsOriginal(parts: seq<string>, original: string)
    requires forall i :: 0 <= i < |parts| ==> StringTemplate.NoDelimiter(parts[i])
    ensures ResolveMessage(Template(StringTemplate.Join(parts, StringTemplate.Placeholder)), original)
         == Some(StringTemplate.Join(parts, original))
  {
    StringTemplate.FillsEveryPlaceholder(parts, original);
  }

  /** `_transform_and_raise`: build the new error from the matched rule and
      raise it, chained from the original error or from `None`. */
  function TransformAndRaise(t: ExceptionTransformation, e: Error, rt: Runtime): (c: Completion<()>)
    ensures c.Raised?
    ensures c.error.kind == t.newException
    ensures c.error.arg == ResolveMessage(t.errorMessage, e.rendered)
    ensures t.fromError ==> c.error.cause == Some(e)
    ensures !t.fromError ==> c.error.cause == None
    ensures c.error.id == rt.freshId
    ensures c.error.rendered == rt.render(t.newException, c.error.arg)
  {
    var arg := ResolveMessage(t.errorMessage, e.rendered);
    var cause := if t.fromError then Some(e) else None;
    Raised(Error(rt.freshId, t.newException, arg, rt.render(t.newException, arg), cause))
  }

  /** Position of the first rule that matches `e`, if any. */
  function FirstMatch(rules: seq<ExceptionTransformation>, e: Error): (r: Option<nat>)
    ensures r.Some? ==> r.value < |rules| && Matches(rules[r.value], e)
    ensures r.Some? ==> forall j :: 0 <= j < r.value ==> !Matches(rules[j], e)
    ensures r.None? <==> forall j :: 0 <= j < |rules| ==> !Matches(rules[j], e)
  {
    if |rules| == 0 then None
    else if Matches(rules[0], e) then Some(0)
    else
      match FirstMatch(rules[1..], e)
      case None => None
      case Some(i) => Some(i + 1)
  }

  /** `_raise_transformed_exception`: it never returns normally. The first
      matching rule in declaration order decides the outcome; with no
      matching rule the original error itself is raised again. */
  function RaiseTransformed(rules: seq<ExceptionTransformation>, e: Error, rt: Runtime): (c: Completion<()>)
    ensures c.Raised?
    ensures forall i :: 0 <= i < |rules| && Matches(rules[i], e)
                        && (forall j :: 0 <= j < i ==> !Matches(rules[j], e))
                        ==> c == TransformAndRaise(rules[i], e, rt)
    ensures (forall j :: 0 <= j < |rules| ==> !Matches(rules[j], e)) ==> c == Raised(e)
  {
    match FirstMatch(rules, e)
    case Some(i) => TransformAndRaise(rules[i], e, rt)
    case None => Raised(e)
  }

  /** The original error comes back exactly when no rule matches (the new
      error is a fresh instance). */
  lemma ReraisedIffUnmatched(rules: seq<ExceptionTransformation>, e: Error, rt: Runtime)
    requires rt.freshId != e.id
    ensures RaiseTransformed(rules, e, rt) == Raised(e)
        <==> forall j :: 0 <= j < |rules| ==> !Matches(rules[j], e)
  {
  }

  /** Once a rule in `rules` matches, rules placed after them are never
      consulted. */
  lemma {:induction false} LaterRulesIgnored(rules: seq<ExceptionTransformation>,
                                             later: seq<ExceptionTransformation>,
                                             e: Error, rt: Runtime)
    requires exists i :: 0 <= i < |rules| && Matches(rules[i], e)
    ensures RaiseTransformed(rules + later, e, rt) == RaiseTransformed(rules, e, rt)
  {
    var i := FirstMatch(rules, e).value;
    var all := rules + later;
    assert all[i] == rules[i];
    assert forall j :: 0 <= j < i ==> all[j] == rules[j];
    assert forall j :: 0 <= j < i ==> !Matches(all[j], e);
  }

  /** Rules that do not match are passed over as if absent. */
  lemma {:induction false} UnmatchedRulesSkipped(rules: seq<ExceptionTransformation>,
                                                 later: seq<ExceptionTransformation>,
                                                 e: Error, rt: Runtime)
    requires forall j :: 0 <= j < |rules| ==> !Matches(rules[j], e)
    ensures RaiseTransformed(rules + later, e, rt) == RaiseTransformed(later, e, rt)
  {
    var all := rules + later;
    assert forall j :: 0 <= j < |later| ==> all[|rules| + j] == later[j];
    match FirstMatch(later, e)
    case Some(i) =>
      assert all[|rules| + i] == later[i];
      forall j | 0 <= j < |rules| + i
        ensures !Matches(all[j], e)
      {
        if j < |rules| {
          assert all[j] == rules[j];
        } else {
          assert all[j] == later[j - |rules|];
        }
      }
    case None =>
      forall j | 0 <= j < |all|
        ensures !Matches(all[j], e)
      {
        if j < |rules| {
          assert all[j] == rules[j];
        } else {
          assert all[j] == later[j - |rules|];
        }
      }
  }

  /** A rule for a class catches every subclass's instances. */
  lemma AncestorRuleMatches(t: ExceptionTransformation, e: Error, k: Kind)
    requires Inherits(e.kind, k)
    requires IsA(k, t.originalException)
    ensures Matches(t, e)
  {
  }
}
